=== FILE: README.md ===
# Pokédex catalogue: list controller and display helpers

A model of the two pieces of logic in a React Native Pokédex app. The first is
the home screen's list-loading controller. It loads the first page of the
PokéAPI listing on mount and appends further pages when the list is scrolled to
its end. The second is the pure display helpers both screens use: the
type-to-colour table, name capitalisation, `#NNN` id labels, first-hyphen
replacement, the hidden-ability suffix, stat colour bands and the stat-bar
width.

Modules:

- `PokemonData` (`types.dfy`): the data shapes of `src/types/pokemon.ts`, plus `Option` for `T | null`.
- `PokeApi` (`types.dfy`): the client's defaults (offset 0, limit 20), the requests it issues, and `Network`. `Network` is the service's answers, given as two total functions that return `None` on any failure.
- `TypeColors` (`type_colors.dfy`): the eighteen-entry colour table. Both screens write it out identically; it is defined once here.
- `TextFormat` (`text_format.dfy`): capitalisation, decimal ids padded to three digits, and `replace('-', ' ')`.
- `DetailsScreen` (`details_screen.dfy`): ability labels, stat colours and stat-bar widths.
- `HomeScreen` (`home_screen.dfy`): the controller. Its state is the accumulated `pokemons`, the `nextUrl` cursor, and the `loading` and `loadingMore` flags. `LoadPokemons` and `LoadMore` are pure transitions. Each takes a state and the network's answers, and returns the next state, the requests issued and the alerts raised.

`loadMore`'s guard (HomeScreen.tsx:49) tests only `nextUrl` and
`loadingMore`, not `loading`. It is still refused during the initial load,
because `nextUrl` stays null until that load succeeds. `HomeScreen.CanLoadMore`
tests exactly what the code tests. It also uses JavaScript truthiness, so an
empty-string cursor disables "load more" just as `null` does.

## Model

| member | source | states |
|---|---|---|
| TypeColors.ColorOf | PokedexApp/src/screens/DetailsScreen.tsx:24-46 | The result is always a `#RGB`/`#RRGGBB` colour. It is `'#777'` exactly when the name is not one of the eighteen table keys. For a known name it is that name's table entry. |
| TypeColors.PrimaryColor | PokedexApp/src/screens/HomeScreen.tsx:69-91 | The card colour is the table colour of the first type's name. It is `'#777'` exactly when the list is empty or that name is unknown. The detail background (DetailsScreen.tsx:48-49) is the same function of the same list. |
| TypeColors.Lookup | PokedexApp/src/screens/HomeScreen.tsx:90 | Finds a value exactly when some entry has the key, and the value found is paired with that key in the table. |
| TypeColors.TableWellFormed | PokedexApp/src/screens/DetailsScreen.tsx:25-44 | The table has 18 entries with distinct keys. Every value is a well-formed hex colour different from `'#777'`, so the `\|\| '#777'` fallback fires only on a missing key. |
| TextFormat.Capitalize | PokedexApp/src/screens/DetailsScreen.tsx:62 | Length is preserved, and every character after the first is unchanged. The first is upper-cased. The name is unchanged exactly when it is empty or does not start with a lower-case letter. When the name starts with a lower-case letter, lower-casing the first character again gives back the name. The home card name (HomeScreen.tsx:112) is the same expression. |
| TextFormat.CapitalizeIdempotent | PokedexApp/src/screens/DetailsScreen.tsx:62 | Capitalising twice is capitalising once. |
| TextFormat.IdLabel | PokedexApp/src/screens/DetailsScreen.tsx:64 | The label is `#` followed by at least three characters. Ids of 100 or more are shown unpadded, and smaller non-negative ids get exactly three digits. The home card id (HomeScreen.tsx:102) is the same expression. |
| TextFormat.IdLabelDigits | PokedexApp/src/screens/DetailsScreen.tsx:64 | For a non-negative id, the characters after `#` are all digits and read back as the id. Stripping the zeros of a positive id's label gives its numeral. |
| TextFormat.PadStart | PokedexApp/src/screens/DetailsScreen.tsx:64 | `padStart(width, fill)`: the result is the original string preceded by fill characters, and its length is the larger of the width and the original length. A string already that long is unchanged. The home card id (HomeScreen.tsx:102) pads the same way. |
| TextFormat.PaddedDigits | PokedexApp/src/screens/DetailsScreen.tsx:64 | `padStart(3, '0')` of a non-negative id's numeral is zeros then the numeral. It parses to the id, has length 3 below 100, and is the bare numeral from 100 up. |
| TextFormat.ParseDigits | PokedexApp/src/screens/DetailsScreen.tsx:64 | Reading back the decimal numeral of `n` gives `n`. |
| TextFormat.DecimalDigits | PokedexApp/src/screens/DetailsScreen.tsx:64 | `toString` of a non-negative integer id (below 2^53) is a non-empty string of digits, without a leading zero unless the number is 0. |
| TextFormat.DigitsLength | PokedexApp/src/screens/DetailsScreen.tsx:64 | A numeral has three or more digits exactly when the number is at least 100, so that is where padding stops. |
| TextFormat.ReplaceFirstHyphen | PokedexApp/src/screens/DetailsScreen.tsx:127 | Length is preserved, and a name without `-` is unchanged. Otherwise the result is the name with only its first `-` replaced by a space, so later hyphens stay. The ability name (line 112) uses the same replacement. |
| TextFormat.IndexOf | PokedexApp/src/screens/DetailsScreen.tsx:112 | The first occurrence: the character is there, and not at any earlier index. |
| DetailsScreen.AbilityLabel | PokedexApp/src/screens/DetailsScreen.tsx:112-113 | The label starts with the hyphen-replaced name. It is longer than the name exactly when the ability is hidden, and then the rest is `' (Oculta)'`. |
| DetailsScreen.StatColor | PokedexApp/src/screens/DetailsScreen.tsx:136-137 | The colour is `'#4CAF50'` iff the stat is above 80, `'#FFC107'` iff it is 51..80, and `'#F44336'` iff it is 50 or less. |
| DetailsScreen.StatBarWidth | PokedexApp/src/screens/DetailsScreen.tsx:135 | For non-negative stats the width is in [0, 100]. It is exactly 100 from 150 up, and below that it is the stat as a percentage of 150. |
| DetailsScreen.StatBarMonotone | PokedexApp/src/screens/DetailsScreen.tsx:135 | A larger stat never gives a narrower bar. |
| DetailsScreen.StatBarInjectiveBelowCap | PokedexApp/src/screens/DetailsScreen.tsx:135 | Up to the cap, equal widths mean equal stats. |
| HomeScreen.FetchDetails | PokedexApp/src/screens/HomeScreen.tsx:35-37 | `Promise.all` succeeds exactly when every detail fetch succeeds. It then holds one detail per reference, in reference order. |
| HomeScreen.DetailRequests | PokedexApp/src/screens/HomeScreen.tsx:36 | One detail request per listed reference, to that reference's URL, in list order. |
| HomeScreen.FetchPage | PokedexApp/src/screens/HomeScreen.tsx:52-56 | The first request lists the given offset with limit 20. Detail requests follow only if the listing arrived. The page fails exactly when the listing or any detail fetch fails. Otherwise the outcome is exactly what the service served. |
| HomeScreen.LoadPokemons | PokedexApp/src/screens/HomeScreen.tsx:31-46 | Issues exactly the requests of fetching the page at offset 0: one listing request, then one detail request per reference only if the listing arrived. Always clears `loading`. On success the list becomes the page's details in result order and the cursor the page's `next`, with no alert. On failure the state is unchanged except for `loading`, and exactly one alert is raised. |
| HomeScreen.CanLoadMore | PokedexApp/src/screens/HomeScreen.tsx:49 | "Load more" may proceed only with a non-empty cursor and `loadingMore` clear. It is refused on a null cursor, an empty cursor, or `loadingMore` set, and `loading` never affects it. |
| HomeScreen.LoadMore | PokedexApp/src/screens/HomeScreen.tsx:48-66 | When the cursor is falsy or `loadingMore` is set, nothing changes and no request is made. Otherwise it issues exactly the requests of fetching the page at the offset equal to the list length: one listing request, then one detail request per reference only if the listing arrived. It clears `loadingMore`. On success the old list is a prefix, the length grows by the page size, the tail is the page's details in order and the cursor is the page's `next`. On failure list and cursor are unchanged and one alert is raised. |
| HomeScreen.EndOfListIsFinal | PokedexApp/src/screens/HomeScreen.tsx:49 | Once the cursor is null (or empty), every later sequence of "load more" signals leaves the state unchanged, whatever the network answers. |
| HomeScreen.RunExtendsList | PokedexApp/src/screens/HomeScreen.tsx:58 | Over any sequence of "load more" signals the old list stays a prefix, `loading` is untouched and a clear `loadingMore` stays clear. |
| HomeScreen.Session | PokedexApp/src/screens/HomeScreen.tsx:22-29 | After mount and any number of "load more" signals, both flags are clear. A failed initial load leaves the list empty and the cursor null for good. A successful one stays at the front of the list. |
| HomeScreen.TwoPagesInOrder | PokedexApp/src/screens/HomeScreen.tsx:39-59 | After two successful loads of sizes A and B, the second is requested at offset A and the list has A + B entries. The first A are the first page's details in order and the next B the second page's. |

## Left out

- HTTP through axios (`src/services/pokeApi.ts`): each response is a `Network` answer. The URL text `?offset=…&limit=…` is reduced to the `ListPage(offset, limit)` request. The client's fixed error messages are reduced to `None`. Detail answers are a function of the URL, so two references with the same URL in one page get the same answer, where the app sends two independent requests; PokéAPI listings never repeat a URL.
- The concurrency of `Promise.all`: the detail fetches are one all-or-nothing outcome. Which failure arrives first is not observable, because the alert is fixed.
- The stale-closure race in `loadMore`: `loadingMore` and `pokemons` are captured React state, so two end-of-list events before a re-render could both pass the guard. Each load is modelled as one atomic step. The model claims nothing about the number of requests in flight in the real app.
- Rendering, styles, `FlatList` wiring and navigation (`src/navigation/AppNavigator.tsx` and the JSX of both screens). This includes the one-letter type badge (HomeScreen.tsx:119) and the upper-cased type badge text (DetailsScreen.tsx:83).
- Height and weight formatting `(x / 10).toFixed(1)` (DetailsScreen.tsx:96, 100): floating-point string formatting.
- TypeColors.ColorOf: treats the colour table as a plain dictionary. In JavaScript, a name inherited from `Object.prototype` (such as `toString`) would return a function, not `'#777'`. The API never sends such a type name.
- TextFormat.Capitalize: upper-cases ASCII letters only. JavaScript's `toUpperCase` also maps other letters and can lengthen the string (`'ß'` becomes `"SS"`).
- DetailsScreen.StatBarWidth: computed over the reals, not IEEE doubles, so the rounding of `/ 150 * 100` is not modelled.
- TextFormat.DecimalDigits: takes ids as exact integers below 2^53, where JavaScript's `toString` writes the plain decimal numeral. From 1e21 up `toString` switches to exponent form (`"1e+21"`), and above 2^53 doubles are no longer exact. PokéAPI ids are far below both bounds.
- Numbers are integers: the ids, stats and offsets the app handles are integers. A fractional id's `toString` is not modelled. A negative id is rendered as JavaScript would, with the zero padding placed before the minus sign.

=== FILE: details_screen.dfy ===
/** The values the detail screen derives from one Pokémon: ability labels,
    stat colours and stat-bar widths. Its background colour, name and id
    labels are `TypeColors.PrimaryColor`, `TextFormat.Capitalize` and
    `TextFormat.IdLabel`. */
module DetailsScreen {
  import opened PokemonData
  import opened TextFormat

  /** Appended to the label of a hidden ability. */
  const HiddenSuffix: string := " (Oculta)"

  /** The ability's name with its first hyphen replaced, then the hidden
      marker when the ability is hidden. */
  function AbilityLabel(a: PokemonAbility): (r: string)
    ensures |r| >= |a.ability.name| && r[..|a.ability.name|] == ReplaceFirstHyphen(a.ability.name)
    ensures a.isHidden <==> |r| > |a.ability.name|
    ensures a.isHidden ==> r[|a.ability.name|..] == HiddenSuffix
  {
    ReplaceFirstHyphen(a.ability.name) + (if a.isHidden then HiddenSuffix else "")
  }

  const StatHigh: string := "#4CAF50"
  const StatMedium: string := "#FFC107"
  const StatLow: string := "#F44336"

  /** The colour of a stat bar: three bands, above 80, 51 to 80, and 50 or
      less, which between them cover every value. */
  function StatColor(baseStat: int): (r: string)
    ensures r == StatHigh <==> baseStat > 80
    ensures r == StatMedium <==> 50 < baseStat <= 80
    ensures r == StatLow <==> baseStat <= 50
  {
    if baseStat > 80 then StatHigh
    else if baseStat > 50 then StatMedium
    else StatLow
  }

  /** The largest stat a bar can show; larger stats fill it. */
  const StatBarCap: int := 150

  /** The width of a stat bar in percent: the stat as a share of 150,
      clamped at a full bar. Computed over the reals. */
  function StatBarWidth(baseStat: int): (w: real)
    ensures baseStat >= 0 ==> 0.0 <= w <= 100.0
    ensures baseStat >= StatBarCap ==> w == 100.0
    ensures baseStat <= StatBarCap ==> w * StatBarCap as real == baseStat as real * 100.0
  {
    var shown := if baseStat < StatBarCap then baseStat else StatBarCap;
    shown as real / StatBarCap as real * 100.0
  }

  /** A larger stat never draws a shorter bar. */
  lemma StatBarMonotone(a: int, b: int)
    requires a <= b
    ensures StatBarWidth(a) <= StatBarWidth(b)
  {
  }

  /** Below the cap, different stats draw different bars. */
  lemma StatBarInjectiveBelowCap(a: int, b: int)
    requires a <= StatBarCap && b <= StatBarCap
    requires StatBarWidth(a) == StatBarWidth(b)
    ensures a == b
  {
  }
}

=== FILE: home_screen.dfy ===
/** The list-loading controller of the home screen: the accumulated list,
    the `next` cursor and the two loading flags, driven by the initial load
    on mount and by "load more" when the list is scrolled to its end. Each
    load is one atomic step; what the service answers during it is the
    `Network` argument. */
module HomeScreen {
  import opened PokemonData
  import opened PokeApi

  datatype State = State(
    pokemons: seq<Pokemon>,
    nextUrl: Option<string>,
    loading: bool,
    loadingMore: bool)

  /** The state on mount: nothing loaded, no cursor, initial load pending. */
  const Initial: State := State([], None, true, false)

  /** A modal alert dialog (`Alert.alert`). */
  datatype Alert = Alert(title: string, message: string)

  const ListAlert: Alert := Alert("Erro", "N\U{e3}o foi poss\U{ed}vel carregar os pok\U{e9}mons")
  const MoreAlert: Alert := Alert("Erro", "N\U{e3}o foi poss\U{ed}vel carregar mais pok\U{e9}mons")

  /** The result of fetching one page and, concurrently, every detail it
      references, joined all-or-nothing. */
  datatype PageOutcome = Loaded(page: PokemonListResponse, details: seq<Pokemon>) | Failed

  datatype PageFetch = PageFetch(requests: seq<Request>, outcome: PageOutcome)

  /** The effect of one load: the next state, the requests issued and the
      alerts raised. */
  datatype Transition = Transition(state: State, requests: seq<Request>, alerts: seq<Alert>)

  /** The service lists the page at `offset` as `page` and answers each of
      its references with the matching element of `details`. */
  predicate Serves(net: Network, offset: nat, page: PokemonListResponse, details: seq<Pokemon>) {
    && net.list(offset, PageSize) == Some(page)
    && |details| == |page.results|
    && forall i :: 0 <= i < |details| ==> net.details(page.results[i].url) == Some(details[i])
  }

  /** The listing at `offset` fails, or one of its detail fetches does. */
  predicate PageFails(net: Network, offset: nat) {
    || net.list(offset, PageSize).None?
    || exists i :: 0 <= i < |net.list(offset, PageSize).value.results| &&
         net.details(net.list(offset, PageSize).value.results[i].url).None?
  }

  /** `Promise.all` over the detail fetches of `items`: every detail in
      item order, or nothing when any fetch fails. */
  function FetchDetails(net: Network, items: seq<NamedResource>): (r: Option<seq<Pokemon>>)
    ensures r.Some? <==> forall i :: 0 <= i < |items| ==> net.details(items[i].url).Some?
    ensures r.Some? ==>
      && |r.value| == |items|
      && forall i :: 0 <= i < |items| ==> net.details(items[i].url) == Some(r.value[i])
  {
    if |items| == 0 then Some([])
    else
      var rest := FetchDetails(net, items[1..]);
      assert forall i :: 1 <= i < |items| ==> items[i] == items[1..][i - 1];
      match net.details(items[0].url)
      case None => None
      case Some(p) => if rest.None? then None else Some([p] + rest.value)
  }

  /** The detail requests for `items`, all issued before any is awaited. */
  function DetailRequests(items: seq<NamedResource>): (rs: seq<Request>)
    ensures |rs| == |items|
    ensures forall i :: 0 <= i < |items| ==> rs[i] == Details(items[i].url)
  {
    seq(|items|, i requires 0 <= i < |items| => Details(items[i].url))
  }

  /** Lists the page at `offset` with the default page size, then fetches
      every referenced detail. The outcome is loaded exactly when the
      service serves the whole page; detail requests go out only once the
      listing has arrived. */
  function FetchPage(net: Network, offset: nat): (f: PageFetch)
    ensures |f.requests| >= 1 && f.requests[0] == ListPage(offset, PageSize)
    ensures net.list(offset, PageSize).None? ==> f.requests == [ListPage(offset, PageSize)]
    ensures net.list(offset, PageSize).Some? ==>
      f.requests[1..] == DetailRequests(net.list(offset, PageSize).value.results)
    ensures f.outcome.Failed? <==> PageFails(net, offset)
    ensures f.outcome.Loaded? ==> Serves(net, offset, f.outcome.page, f.outcome.details)
  {
    match net.list(offset, PageSize)
    case None => PageFetch([ListPage(offset, PageSize)], Failed)
    case Some(page) =>
      var requests := [ListPage(offset, PageSize)] + DetailRequests(page.results);
      match FetchDetails(net, page.results)
      case None => PageFetch(requests, Failed)
      case Some(details) => PageFetch(requests, Loaded(page, details))
  }

  /** `loadPokemons`: fetches the first page; on success the list becomes
      the page's details in order and the cursor the page's `next`; on
      failure list and cursor stay and one alert is raised. `loading` is
      cleared either way. */
  function LoadPokemons(s: State, net: Network): (t: Transition)
    ensures |t.requests| >= 1 && t.requests[0] == ListPage(FirstOffset, PageSize)
    ensures t.requests == FetchPage(net, FirstOffset).requests
    ensures !t.state.loading && t.state.loadingMore == s.loadingMore
    ensures PageFails(net, FirstOffset) ==>
      t.state == s.(loading := false) && t.alerts == [ListAlert]
    ensures !PageFails(net, FirstOffset) ==>
      && Serves(net, FirstOffset, net.list(FirstOffset, PageSize).value, t.state.pokemons)
      && t.state.nextUrl == net.list(FirstOffset, PageSize).value.next
      && t.alerts == []
  {
    var f := FetchPage(net, FirstOffset);
    match f.outcome
    case Loaded(page, details) =>
      Transition(s.(pokemons := details, nextUrl := page.next, loading := false), f.requests, [])
    case Failed =>
      Transition(s.(loading := false), f.requests, [ListAlert])
  }

  /** JavaScript truthiness of `string | null`: the empty string is falsy. */
  predicate IsTruthy(url: Option<string>) {
    url.Some? && url.value != ""
  }

  /** The guard of `loadMore`: a cursor to follow and no load in flight.
      It refuses in exactly three cases: a null cursor, an empty cursor,
      and `loadingMore` set; `loading` plays no part. */
  function CanLoadMore(s: State): (b: bool)
    ensures b ==> s.nextUrl.Some? && |s.nextUrl.value| > 0 && !s.loadingMore
    ensures s.nextUrl == None || s.nextUrl == Some("") || s.loadingMore ==> !b
    ensures s.nextUrl.Some? && |s.nextUrl.value| > 0 && !s.loadingMore ==> b
  {
    IsTruthy(s.nextUrl) && !s.loadingMore
  }

  /** `loadMore`: when the guard fails nothing happens and nothing is
      requested. Otherwise it lists the page whose offset is the current
      list length; on success the page's details are appended after the
      old list in result order and the cursor becomes the page's `next`;
      on failure list and cursor stay and one alert is raised.
      `loadingMore` is clear afterwards either way. */
  function LoadMore(s: State, net: Network): (t: Transition)
    ensures !CanLoadMore(s) ==> t == Transition(s, [], [])
    ensures CanLoadMore(s) ==> t.requests == FetchPage(net, |s.pokemons|).requests
    ensures CanLoadMore(s) ==>
      && |t.requests| >= 1
      && t.requests[0] == ListPage(|s.pokemons|, PageSize)
      && !t.state.loadingMore
      && t.state.loading == s.loading
    ensures CanLoadMore(s) && PageFails(net, |s.pokemons|) ==>
      && t.state.pokemons == s.pokemons
      && t.state.nextUrl == s.nextUrl
      && t.alerts == [MoreAlert]
    ensures CanLoadMore(s) && !PageFails(net, |s.pokemons|) ==>
      var page := net.list(|s.pokemons|, PageSize).value;
      && |t.state.pokemons| == |s.pokemons| + |page.results|
      && t.state.pokemons[..|s.pokemons|] == s.pokemons
      && Serves(net, |s.pokemons|, page, t.state.pokemons[|s.pokemons|..])
      && t.state.nextUrl == page.next
      && t.alerts == []
  {
    if !CanLoadMore(s) then Transition(s, [], [])
    else
      var f := FetchPage(net, |s.pokemons|);
      match f.outcome
      case Loaded(page, details) =>
        var merged := s.pokemons + details;
        assert merged[..|s.pokemons|] == s.pokemons && merged[|s.pokemons|..] == details;
        Transition(s.(pokemons := merged, nextUrl := page.next, loadingMore := false), f.requests, [])
      case Failed =>
        Transition(s.(loadingMore := false), f.requests, [MoreAlert])
  }

  /** The state after a sequence of "load more" signals, the i-th answered
      by `nets[i]`. */
  function LoadMoreRun(s: State, nets: seq<Network>): State
    decreases |nets|
  {
    if |nets| == 0 then s else LoadMoreRun(LoadMore(s, nets[0]).state, nets[1..])
  }

  /** A falsy cursor stays falsy and every later "load more" is a no-op. */
  lemma {:induction false} EndOfListIsFinal(s: State, nets: seq<Network>)
    requires !IsTruthy(s.nextUrl)
    ensures LoadMoreRun(s, nets) == s
    decreases |nets|
  {
    if |nets| > 0 {
      EndOfListIsFinal(LoadMore(s, nets[0]).state, nets[1..]);
    }
  }

  /** The list only grows at its end, whatever the service answers, and the
      in-flight flag stays clear once clear. */
  lemma {:induction false} RunExtendsList(s: State, nets: seq<Network>)
    ensures s.pokemons <= LoadMoreRun(s, nets).pokemons
    ensures !s.loadingMore ==> !LoadMoreRun(s, nets).loadingMore
    ensures LoadMoreRun(s, nets).loading == s.loading
    decreases |nets|
  {
    if |nets| > 0 {
      var s' := LoadMore(s, nets[0]).state;
      assert s.pokemons <= s'.pokemons;
      RunExtendsList(s', nets[1..]);
    }
  }

  /** One screen lifetime: the initial load on mount, answered by `mount`,
      then "load more" signals answered by `more`. Afterwards neither flag
      is set; a failed initial load leaves the list empty and the cursor
      null for good; otherwise the first page stays at the front. */
  function Session(mount: Network, more: seq<Network>): (r: State)
    ensures !r.loading && !r.loadingMore
    ensures PageFails(mount, FirstOffset) ==> r == State([], None, false, false)
    ensures !PageFails(mount, FirstOffset) ==>
      LoadPokemons(Initial, mount).state.pokemons <= r.pokemons
  {
    var first := LoadPokemons(Initial, mount).state;
    RunExtendsList(first, more);
    if PageFails(mount, FirstOffset) then EndOfListIsFinal(first, more); LoadMoreRun(first, more)
    else LoadMoreRun(first, more)
  }

  /** Two successful loads in a row put the first page's details first and
      the second page's right after them, the second requested at the
      offset where the first ended. */
  lemma TwoPagesInOrder(mount: Network, more: Network)
    requires !PageFails(mount, FirstOffset)
    requires var s := LoadPokemons(Initial, mount).state;
      CanLoadMore(s) && !PageFails(more, |s.pokemons|)
    ensures var s := LoadPokemons(Initial, mount).state;
      var a := mount.list(FirstOffset, PageSize).value;
      var b := more.list(|a.results|, PageSize).value;
      var r := Session(mount, [more]);
      && |s.pokemons| == |a.results|
      && |LoadMore(s, more).requests| >= 1
      && LoadMore(s, more).requests[0] == ListPage(|a.results|, PageSize)
      && |r.pokemons| == |a.results| + |b.results|
      && Serves(mount, FirstOffset, a, r.pokemons[..|a.results|])
      && Serves(more, |a.results|, b, r.pokemons[|a.results|..])
  {
    var s := LoadPokemons(Initial, mount).state;
    assert LoadMoreRun(s, [more]) == LoadMoreRun(LoadMore(s, more).state, []);
  }
}

=== FILE: text_format.dfy ===
/** The string formatting both screens apply to names and ids. JavaScript
    strings are modelled as sequences of characters; case mapping is
    modelled for ASCII letters only. */
module TextFormat {

  predicate IsAsciiLower(c: char) { 'a' <= c <= 'z' }

  predicate IsAsciiUpper(c: char) { 'A' <= c <= 'Z' }

  function ToLowerAscii(c: char): char {
    if IsAsciiUpper(c) then (c as int + 32) as char else c
  }

  /** `toUpperCase` of one character, over ASCII. */
  function ToUpperAscii(c: char): (u: char)
    ensures IsAsciiLower(c) ==> IsAsciiUpper(u) && ToLowerAscii(u) == c
    ensures !IsAsciiLower(c) ==> u == c
  {
    if IsAsciiLower(c) then (c as int - 32) as char else c
  }

  /** `s.charAt(0).toUpperCase() + s.slice(1)`: on the empty string both
      halves are empty. */
  function Capitalize(s: string): (r: string)
    ensures |r| == |s|
    ensures forall i :: 0 < i < |s| ==> r[i] == s[i]
    ensures |s| > 0 ==> r[0] == ToUpperAscii(s[0])
    ensures r == s <==> |s| == 0 || !IsAsciiLower(s[0])
    ensures |s| > 0 && IsAsciiLower(s[0]) ==> IsAsciiUpper(r[0]) && [ToLowerAscii(r[0])] + r[1..] == s
  {
    if |s| == 0 then "" else [ToUpperAscii(s[0])] + s[1..]
  }

  lemma CapitalizeIdempotent(s: string)
    ensures Capitalize(Capitalize(s)) == Capitalize(s)
  {
  }

  // ---------------------------------------------------------------------
  // Decimal rendering of ids: `id.toString().padStart(3, '0')`
  // ---------------------------------------------------------------------

  predicate IsDigit(c: char) { '0' <= c <= '9' }

  predicate AllDigits(s: string) {
    forall i :: 0 <= i < |s| ==> IsDigit(s[i])
  }

  function DigitChar(d: nat): (c: char)
    requires d < 10
    ensures IsDigit(c)
  {
    ('0' as int + d) as char
  }

  function DigitValue(c: char): (d: nat)
    requires IsDigit(c)
    ensures d < 10 && DigitChar(d) == c
  {
    c as int - '0' as int
  }

  /** The shortest decimal numeral of `n`, as `Number.prototype.toString`
      writes a non-negative integer. */
  function DecimalDigits(n: nat): (d: string)
    ensures |d| >= 1 && AllDigits(d)
    ensures n >= 1 ==> d[0] != '0'
    decreases n
  {
    if n < 10 then [DigitChar(n)] else DecimalDigits(n / 10) + [DigitChar(n % 10)]
  }

  /** `toString` of an integer-valued number: a minus sign before the
      digits of a negative one. */
  function IntToString(n: int): string {
    if n < 0 then "-" + DecimalDigits(-n) else DecimalDigits(n)
  }

  /** The value of a numeral, leading zeros allowed. */
  function ParseDecimal(s: string): nat
    requires AllDigits(s)
  {
    if |s| == 0 then 0 else ParseDecimal(s[..|s| - 1]) * 10 + DigitValue(s[|s| - 1])
  }

  function Zeros(k: nat): (z: string)
    ensures |z| == k && AllDigits(z)
  {
    seq(k, _ => '0')
  }

  /** Drops every leading '0'. */
  function StripLeadingZeros(s: string): (r: string)
    ensures |r| <= |s| && r == s[|s| - |r|..]
    ensures |r| == 0 || r[0] != '0'
    ensures forall i :: 0 <= i < |s| - |r| ==> s[i] == '0'
  {
    if |s| > 0 && s[0] == '0' then StripLeadingZeros(s[1..]) else s
  }

  /** `s.padStart(width, fill)` with a one-character fill. */
  function PadStart(s: string, width: nat, fill: char): (r: string)
    ensures |r| == if |s| >= width then |s| else width
    ensures r[|r| - |s|..] == s
    ensures forall i :: 0 <= i < |r| - |s| ==> r[i] == fill
  {
    if |s| >= width then s else seq(width - |s|, _ => fill) + s
  }

  lemma {:induction false} ParseDigits(n: nat)
    ensures ParseDecimal(DecimalDigits(n)) == n
    decreases n
  {
    if n >= 10 {
      var d := DecimalDigits(n / 10);
      var s := d + [DigitChar(n % 10)];
      assert s[..|s| - 1] == d;
      ParseDigits(n / 10);
    }
  }

  lemma {:induction false} ParseZeros(k: nat)
    ensures ParseDecimal(Zeros(k)) == 0
  {
    if k > 0 {
      assert Zeros(k)[..k - 1] == Zeros(k - 1);
      ParseZeros(k - 1);
    }
  }

  lemma {:induction false} ParseIgnoresLeadingZeros(k: nat, s: string)
    requires AllDigits(s)
    ensures AllDigits(Zeros(k) + s)
    ensures ParseDecimal(Zeros(k) + s) == ParseDecimal(s)
    decreases |s|
  {
    var t := Zeros(k) + s;
    if |s| == 0 {
      assert t == Zeros(k);
      ParseZeros(k);
    } else {
      assert t[..|t| - 1] == Zeros(k) + s[..|s| - 1];
      ParseIgnoresLeadingZeros(k, s[..|s| - 1]);
    }
  }

  lemma {:induction false} StripZerosPrefix(k: nat, s: string)
    requires |s| == 0 || s[0] != '0'
    ensures StripLeadingZeros(Zeros(k) + s) == s
  {
    if k == 0 {
      assert Zeros(0) + s == s;
    } else {
      assert (Zeros(k) + s)[1..] == Zeros(k - 1) + s;
      StripZerosPrefix(k - 1, s);
    }
  }

  /** A numeral has at least three digits exactly when the number is at
      least 100. */
  lemma DigitsLength(n: nat)
    ensures |DecimalDigits(n)| >= 3 <==> n >= 100
  {
    if n >= 10 {
      var m := n / 10;
      if m >= 10 {
        assert |DecimalDigits(m)| >= 2;
      } else {
        assert |DecimalDigits(m)| == 1;
      }
    }
  }

  /** `'#' + id.toString().padStart(3, '0')`: ids from 100 up are shown
      unpadded and smaller non-negative ones are padded to exactly three
      digits. `IdLabelDigits` reads the id back from the label. */
  function IdLabel(id: int): (r: string)
    ensures |r| >= 4 && r[0] == '#'
    ensures id >= 100 ==> r == "#" + DecimalDigits(id)
    ensures 0 <= id < 100 ==> |r| == 4
  {
    var shown := "#" + PadStart(IntToString(id), 3, '0');
    assert shown[1..] == PadStart(IntToString(id), 3, '0');
    if id >= 0 then PaddedDigits(id); shown else shown
  }

  /** The digits of a non-negative id's label read back as the id, and
      stripping the padding of a positive id gives back its numeral. */
  lemma IdLabelDigits(id: nat)
    ensures AllDigits(IdLabel(id)[1..]) && ParseDecimal(IdLabel(id)[1..]) == id
    ensures id >= 1 ==> StripLeadingZeros(IdLabel(id)[1..]) == DecimalDigits(id)
  {
    assert IdLabel(id)[1..] == PadStart(IntToString(id), 3, '0');
    PaddedDigits(id);
  }

  /** The padded numeral of a non-negative id is zeros followed by its
      numeral, with all that follows from it. */
  lemma PaddedDigits(id: nat)
    ensures var p := PadStart(IntToString(id), 3, '0');
      && p == Zeros(|p| - |DecimalDigits(id)|) + DecimalDigits(id)
      && AllDigits(p)
      && ParseDecimal(p) == id
      && (id >= 100 ==> p == DecimalDigits(id))
      && (id < 100 ==> |p| == 3)
      && (id >= 1 ==> StripLeadingZeros(p) == DecimalDigits(id))
  {
    var p := PadStart(IntToString(id), 3, '0');
    var d := DecimalDigits(id);
    var k := |p| - |d|;
    assert p == Zeros(k) + d;
    DigitsLength(id);
    ParseDigits(id);
    ParseIgnoresLeadingZeros(k, d);
    if id >= 1 {
      StripZerosPrefix(k, d);
    }
  }

  // ---------------------------------------------------------------------
  // `name.replace('-', ' ')`: a string pattern replaces its first match
  // ---------------------------------------------------------------------

  /** The index of the first occurrence of `c` in `s`. */
  function IndexOf(s: string, c: char): (i: nat)
    requires c in s
    ensures i < |s| && s[i] == c
    ensures forall j :: 0 <= j < i ==> s[j] != c
  {
    if s[0] == c then 0 else 1 + IndexOf(s[1..], c)
  }

  /** Replaces the first '-' by a space and keeps every other character,
      later hyphens included. */
  function ReplaceFirstHyphen(s: string): (r: string)
    ensures |r| == |s|
    ensures '-' !in s ==> r == s
    ensures '-' in s ==> r == s[..IndexOf(s, '-')] + " " + s[IndexOf(s, '-') + 1..]
  {
    if |s| == 0 then ""
    else if s[0] == '-' then " " + s[1..]
    else
      var rest := [s[0]] + ReplaceFirstHyphen(s[1..]);
      assert '-' in s ==> '-' in s[1..];
      rest
  }
}

=== FILE: type_colors.dfy ===
/** The type-to-colour table both screens use to tint a Pokémon by its
    type. The app writes the table out twice, once per screen, with the
    same eighteen entries; it is defined once here. */
module TypeColors {
  import opened PokemonData

  /** The colour of any name that is not in the table. */
  const Fallback: string := "#777"

  /** The eighteen entries, in the order the app lists them. */
  const Table: seq<(string, string)> := [
    ("normal", "#A8A878"),
    ("fire", "#F08030"),
    ("water", "#6890F0"),
    ("electric", "#F8D030"),
    ("grass", "#78C850"),
    ("ice", "#98D8D8"),
    ("fighting", "#C03028"),
    ("poison", "#A040A0"),
    ("ground", "#E0C068"),
    ("flying", "#A890F0"),
    ("psychic", "#F85888"),
    ("bug", "#A8B820"),
    ("rock", "#B8A038"),
    ("ghost", "#705898"),
    ("dragon", "#7038F8"),
    ("dark", "#705848"),
    ("steel", "#B8B8D0"),
    ("fairy", "#EE99AC")
  ]

  predicate IsHexDigit(c: char) {
    '0' <= c <= '9' || 'A' <= c <= 'F' || 'a' <= c <= 'f'
  }

  /** A CSS colour in `#RGB` or `#RRGGBB` notation. */
  predicate IsHexColor(s: string) {
    && (|s| == 4 || |s| == 7)
    && s[0] == '#'
    && forall i :: 1 <= i < |s| ==> IsHexDigit(s[i])
  }

  /** The type names the table has an entry for. */
  predicate IsKnownType(name: string) {
    exists i :: 0 <= i < |Table| && Table[i].0 == name
  }

  /** The value of the first entry of `table` whose key is `key`. */
  function Lookup(table: seq<(string, string)>, key: string): (r: Option<string>)
    ensures r.Some? <==> exists i :: 0 <= i < |table| && table[i].0 == key
    ensures r.Some? ==> exists i :: 0 <= i < |table| && table[i] == (key, r.value)
  {
    if |table| == 0 then None
    else if table[0].0 == key then Some(table[0].1)
    else
      var found := Lookup(table[1..], key);
      assert forall i :: 1 <= i < |table| ==> table[i] == table[1..][i - 1];
      found
  }

  /** Every entry is a well-formed colour other than the fallback, and no
      name is listed twice, so the table is a function and "#777" is never
      one of its values. */
  lemma TableWellFormed()
    ensures |Table| == 18
    ensures forall i :: 0 <= i < |Table| ==> IsHexColor(Table[i].1) && Table[i].1 != Fallback
    ensures forall i, j :: 0 <= i < j < |Table| ==> Table[i].0 != Table[j].0
  {
  }

  /** `typeColors[name] || '#777'`. */
  function ColorOf(name: string): (r: string)
    ensures IsHexColor(r)
    ensures r == Fallback <==> !IsKnownType(name)
    ensures IsKnownType(name) ==> exists i :: 0 <= i < |Table| && Table[i] == (name, r)
  {
    TableWellFormed();
    match Lookup(Table, name)
    case Some(c) => c
    case None => Fallback
  }

  /** The colour of the first type of a list, as both screens compute it;
      an empty list has no first type name and gets the fallback. */
  function PrimaryColor(types: seq<PokemonType>): (r: string)
    ensures IsHexColor(r)
    ensures r == Fallback <==> |types| == 0 || !IsKnownType(types[0].kind.name)
    ensures |types| > 0 && IsKnownType(types[0].kind.name) ==>
      exists i :: 0 <= i < |Table| && Table[i] == (types[0].kind.name, r)
  {
    if |types| == 0 then Fallback else ColorOf(types[0].kind.name)
  }
}

=== FILE: types.dfy ===
/** The data shapes of the catalogue: one page of the paginated listing and
    one Pokémon detail document. Values are immutable once fetched; nothing
    in the app mutates them locally. */
module PokemonData {

  /** JavaScript's `T | null`, and the "no value" of an optional lookup. */
  datatype Option<+T> = None | Some(value: T)

  /** A `{ name, url }` pair: a list entry, a type, an ability or a stat
      reference, each naming a resource by its absolute URI. */
  datatype NamedResource = NamedResource(name: string, url: string)

  /** One entry of `types`; `kind` is the JSON field `type`. */
  datatype PokemonType = PokemonType(slot: int, kind: NamedResource)

  datatype PokemonAbility = PokemonAbility(ability: NamedResource, isHidden: bool, slot: int)

  datatype PokemonStat = PokemonStat(baseStat: int, effort: int, stat: NamedResource)

  datatype Sprites = Sprites(frontDefault: string)

  /** A Pokémon detail document; `height` and `weight` are in decimetres
      and hectograms, as the API sends them. */
  datatype Pokemon = Pokemon(
    id: int,
    name: string,
    height: int,
    weight: int,
    sprites: Sprites,
    types: seq<PokemonType>,
    abilities: seq<PokemonAbility>,
    stats: seq<PokemonStat>)

  /** One page of the listing: a total count, the cursors of the adjacent
      pages (`None` at either end) and lightweight references, not full
      entities. */
  datatype PokemonListResponse = PokemonListResponse(
    count: int,
    next: Option<string>,
    previous: Option<string>,
    results: seq<NamedResource>)
}

/** The HTTP client, reduced to what the list controller can observe: the
    requests it issues and the answers it gets back. */
module PokeApi {
  import opened PokemonData

  /** Default `limit` of `getPokemons`. */
  const PageSize: nat := 20

  /** Default `offset` of `getPokemons`, used by the initial load. */
  const FirstOffset: nat := 0

  datatype Request =
    | ListPage(offset: nat, limit: nat)
    | Details(url: string)

  /** What the remote service answers while one load is handled. `None`
      stands for any failure (network error, non-2xx status); the client
      replaces every such error by a fixed message, so nothing more of it
      is observable. */
  datatype Network = Network(
    list: (nat, nat) -> Option<PokemonListResponse>,
    details: string -> Option<Pokemon>)
}
